=== FILE: README.md ===
# Chord trainer core in Dafny

A model of the state logic behind the chord trainer web app (visahaarala/chords).
It covers four pieces:

- The central reducer of `src/context/ChordsContext.tsx`. It covers all 18 action types, the
  initial state, and the range update that keeps a min/max pair ordered and regenerates the chords.
- The player controls of `src/components/player/PlayControls.tsx`. "Next", "previous" and the
  metronome tick are modelled as the lists of actions they dispatch, run through the reducer.
- The tempo handling of `src/pages/Metronome.tsx`. This means the clamped steps, the keyboard
  mapping and the range slider.
- The key list offered by `src/components/notes/KeySelect.tsx`.

Modules:

- `ChordTypes` (`chord_types.dfy`) holds the data model: keys, extensions, chords, shuffle bags,
  the program state, the actions and the reducer's result. It also holds a `Library` record. That
  record carries the helpers the reducer calls but whose code is not part of this model: the level
  lists, the key table, enharmonic respelling and the three generators.
- `ChordsContext` (`chords_context.dfy`) holds the initial state, the range update, the notation
  repair and the reducer `Reduce`. `Run` dispatches a list of actions in order.
- `PlayControls` (`play_controls.dfy`) holds the dispatch lists of the handlers, the JavaScript
  remainder, and the tick and multi-tick semantics.
- `Metronome` (`metronome.dfy`) holds the tempo handlers.
- `KeySelect` (`key_select.dfy`) holds the key options, built with the same map/flat/filter chain
  as the component.
- `Invariants` (`invariants.dfy`) holds session-level invariants: ordered ranges and a valid
  notation pair, from the initial state through any sequence of actions.

JavaScript behaviour is written out where it matters:

- `indexOf` returns -1 for an absent element.
- `slice` clamps its bounds.
- `%` truncates toward zero.
- `Number('0')` as the beats-per-chord count makes `beat % 0` NaN, so the chord never advances.
- Turning a lock on reads `chords[1]` of a window that may be shorter than two. That is a
  `TypeError` in JavaScript and `Err(UndefinedChordInWindow)` here.

## Model

| member | source | states |
|---|---|---|
| ChordTypes.KeyString | src/context/ChordsContext.tsx:221-223 | the key string is the letter followed by at most one accidental sign, 'b' for a flat and '#' for a sharp, and is one character long exactly for a natural |
| ChordTypes.KeyStringInjective | src/context/ChordsContext.tsx:247 | two keys give the same key string if and only if they are the same key, so looking up the string looks up the key |
| ChordsContext.IndexOf | src/context/ChordsContext.tsx:75-76 | `indexOf` gives -1 exactly when the value is absent, and otherwise the position of its first occurrence |
| ChordsContext.Slice | src/context/ChordsContext.tsx:185 | `slice` never yields more than the list; from an in-range start it is the sub-list up to the end bound, clamped to the list's length, and from a start at or past the end it is empty |
| ChordsContext.StateWithUpdatedRange | src/context/ChordsContext.tsx:58-97 | the edited bound takes the payload; a min that passes the max (by list position) drags the max along; a max that reaches or goes below the min drags the min along; the edited range ends ordered; the other range, the settings and the notation pair are untouched; the index restarts at 0 |
| ChordsContext.InitialState | src/context/ChordsContext.tsx:19-56 | the defaults: unmuted, easy..medium, 0..7 accidentals, top note shown in 7..14, index 0, 4 beats per chord at 86 BPM, beat 0, no locks, C major with the 7 extension; the default ranges are ordered if and only if the level lists put easy before medium and 0 before 7 |
| ChordsContext.SearchKeysOrganized | src/context/ChordsContext.tsx:226-233 | the loop over the key table finds the key string if and only if some accidental level lists it for the asked quality |
| ChordsContext.WithNotationKey | src/context/ChordsContext.tsx:217-241 | the chosen key is stored; the extension is kept when the key exists in its quality and is otherwise replaced by a bare extension of the other quality; the result is a valid pair if and only if the key exists in some quality |
| ChordsContext.WithNotationExtension | src/context/ChordsContext.tsx:242-264 | the chosen extension is stored; the key is kept when it exists in the new quality and is otherwise respelled; the result is a valid pair if and only if the key or its respelling exists in that quality |
| ChordsContext.Reduce | src/context/ChordsContext.tsx:99-270 | the reducer fails if and only if a lock is being turned on while fewer than two chords remain from the index; an unknown action type returns the state unchanged |
| ChordsContext.Run | src/context/ChordsContext.tsx:184-207 | a sequence of actions without lock switches never fails |
| ChordsContext.SetBpcEffect | src/context/ChordsContext.tsx:102-108 | a new beats-per-chord setting is stored and the beat restarts at 1 exactly for a one-beat chord and at 0 otherwise; nothing else changes |
| ChordsContext.SimpleActionsEffect | src/context/ChordsContext.tsx:110-213 | `SET_BPM`, `SET_MUTED` and `TOGGLE_SHOW_RANDOM_TOP_NOTE` (lines 110-115 and 208-213) each write their one field and change nothing else; `RESET_SETTINGS` (lines 159-161) yields exactly the initial state |
| ChordsContext.BeatActionsEffect | src/context/ChordsContext.tsx:165-170 | setting the beat stores the payload and incrementing adds one, unbounded, with every other field unchanged |
| ChordsContext.NotationActionsEffect | src/context/ChordsContext.tsx:217-264 | the two notation actions never fail and yield the repaired state of the key or extension repair |
| ChordsContext.RangeEditRegenerates | src/context/ChordsContext.tsx:86-95 | after a range edit, both bag generators are run on the state with the new bounds, `generateChords` is asked for two chords from that state with the new bags, and its chords and bags are the ones stored |
| ChordsContext.RangeActionKeepsOrder | src/context/ChordsContext.tsx:116-158 | each of the four range actions leaves both ranges ordered when they were ordered |
| ChordsContext.SetDifficultyMinPushesMax | src/context/ChordsContext.tsx:116-128 | a difficulty min that ranks above the current max also becomes the max; otherwise the max stays |
| ChordsContext.SetAccidentalsMinPushesMax | src/context/ChordsContext.tsx:139-148 | an accidentals min that ranks above the current max also becomes the max; otherwise the max stays |
| ChordsContext.SetDifficultyMaxPushesMin | src/context/ChordsContext.tsx:129-138 | a difficulty max that ranks at or below the current min also becomes the min; otherwise the min stays |
| ChordsContext.SetAccidentalsMaxPushesMin | src/context/ChordsContext.tsx:149-158 | an accidentals max that ranks at or below the current min also becomes the min; otherwise the min stays |
| ChordsContext.AppendDraws | src/context/ChordsContext.tsx:171-177 | appending stores exactly the chords and bags `generateChords` returns when asked for one appended chord from the current state, moves the index on by one and changes nothing else |
| ChordsContext.IndexActionsStep | src/context/ChordsContext.tsx:171-183 | appending and incrementing each raise the index by exactly one and decrementing lowers it by exactly one, unclamped; appending keeps the settings, the notation and the order of the ranges |
| ChordsContext.SwitchKeyLockEffect | src/context/ChordsContext.tsx:184-195 | with two chords from the index, the key lock keeps only that two-chord window, gives the second chord the first one's key when the lock turns on (and keeps it when it turns off), flips the lock and rewinds to index 0 |
| ChordsContext.SwitchExtensionLockEffect | src/context/ChordsContext.tsx:196-207 | the extension lock does the same with the chord's extension, leaving keys and notes alone |
| ChordsContext.LockThrowsIffShortWindow | src/context/ChordsContext.tsx:185 | a lock switch fails if and only if it turns the lock on and the sliced window holds fewer than two chords |
| ChordsContext.LockOffKeepsWindow | src/context/ChordsContext.tsx:184-207 | turning either lock off from a non-negative index always succeeds, keeps what is left of the two-chord window (fewer chords at the end of the list, none past it), clears the lock and rewinds to index 0 |
| ChordsContext.OtherActionsKeepNotation | src/context/ChordsContext.tsx:99-216 | every action except the two notation actions and a reset leaves the notation key and extension as they were |
| ChordsContext.OtherActionsKeepRangeBounds | src/context/ChordsContext.tsx:99-270 | every action other than the four range edits and a reset leaves all four range bounds as they were |
| ChordsContext.ReduceKeepsRanges | src/context/ChordsContext.tsx:99-270 | when the level lists order the defaults, every successful transition keeps both ranges ordered |
| ChordsContext.RunKeepsRanges | src/context/ChordsContext.tsx:99-270 | the same holds for any sequence of actions |
| PlayControls.NextActions | src/components/player/PlayControls.tsx:41-46 | "next" dispatches an append exactly when the index is within two of the end of the list, and always ends with an increment |
| PlayControls.PreviousActions | src/components/player/PlayControls.tsx:48-52 | "previous" dispatches a decrement exactly when the index is positive, and nothing otherwise |
| PlayControls.JsRemainder | src/components/player/PlayControls.tsx:63 | JavaScript's `%` keeps the sign of the dividend, stays below the divisor in magnitude, is the identity on dividends smaller than the divisor, and agrees with the mathematical remainder on non-negative dividends |
| PlayControls.JsRemainderOdd | src/components/player/PlayControls.tsx:63 | negating the dividend negates the remainder, which with the clause above fixes the result on negative dividends too |
| PlayControls.TickActions | src/components/player/PlayControls.tsx:55-72 | a tick dispatches nothing while stopped or with the '∞' setting; it moves the chord exactly when playing with a numeric count and a non-zero beat that is a multiple of it, and then dispatches exactly "next" followed by a beat of 1; every other playing tick dispatches a single beat increment; it never switches a lock |
| PlayControls.NonAdvancingTick | src/components/player/PlayControls.tsx:61-68 | a playing tick with a numeric count that does not complete the chord only counts the beat up, with every other field unchanged; with a count of 0 this holds on every tick, so the beat grows without end |
| PlayControls.AdvancingTick | src/components/player/PlayControls.tsx:61-65 | a playing tick that completes the chord succeeds, moves the index as "next" does, restarts the beat at 1 and keeps the settings and the notation |
| PlayControls.NextHandlerEffect | src/components/player/PlayControls.tsx:41-46 | with ChordsContext's reducer, "next" always succeeds and moves the index on by one, or by two when it appends, since the append action also moves the index; the settings and the notation stay |
| PlayControls.NextAtEndThenKeyLockThrows | src/components/player/PlayControls.tsx:41-46 | with ChordsContext's reducer, "next" from two chords at index 0 leaves the index at 2 over three chords, and turning the key lock on after it throws |
| PlayControls.PreviousHandlerEffect | src/components/player/PlayControls.tsx:48-52 | "previous" never takes a non-negative index below zero and changes nothing else |
| PlayControls.IdleTickChangesNothing | src/components/player/PlayControls.tsx:56-61 | stopped or with the '∞' setting, a tick leaves the state as it was |
| PlayControls.EndlessNeverAdvances | src/components/player/PlayControls.tsx:61 | with the '∞' setting no number of ticks moves the chord |
| PlayControls.CompletesChordInRange | src/components/player/PlayControls.tsx:63 | for beats between 0 and the count, the advance test holds exactly at the count |
| PlayControls.TickKeepsBeatInRange | src/components/player/PlayControls.tsx:61-68 | a tick keeps the beat between 0 and the count, restarts it at 1 exactly when it had reached the count (moving the chord), and otherwise counts it up |
| PlayControls.TicksCountUp | src/components/player/PlayControls.tsx:66-68 | ticks below the count only count the beat up and never move the chord |
| PlayControls.ChordAdvancesAfterCountBeats | src/components/player/PlayControls.tsx:61-68 | from beat 0, the first `count` ticks leave the chord in place and reach beat `count`, and the next tick moves the chord and restarts at beat 1 |
| Metronome.TempoUp | src/pages/Metronome.tsx:34-37 | a step up is the sum, or the maximum 300 exactly when the sum reaches it; it never exceeds 300 |
| Metronome.TempoDown | src/pages/Metronome.tsx:39-42 | a step down is the difference, or the minimum 20 exactly when the difference reaches it; it never falls below 20 |
| Metronome.StepsKeepTempoInRange | src/pages/Metronome.tsx:10-11 | from a tempo within 20..300, any non-negative step up or down stays within 20..300 |
| Metronome.StepsMoveTheRightWay | src/pages/Metronome.tsx:34-42 | a step up never lowers a tempo at or below the maximum and a step down never raises one at or above the minimum |
| Metronome.KeyDown | src/pages/Metronome.tsx:24-32 | Space or Enter toggles play; the up and down arrows step by 10 and the right and left arrows by 1; any other key changes nothing |
| Metronome.KeyDownKeepsTempoInRange | src/pages/Metronome.tsx:24-32 | no key takes a tempo within 20..300 out of that range |
| Metronome.RangeChange | src/pages/Metronome.tsx:44-46 | the slider's value becomes the tempo unclamped: the tempo is in range if and only if the value is; play is untouched |
| KeySelect.PairsLength | src/components/notes/KeySelect.tsx:10-16 | the map and flat give one key per letter/accidental pair: as many keys as letters times accidentals |
| KeySelect.PairsShape | src/components/notes/KeySelect.tsx:10-16 | over increasing letters and accidentals, the map and flat hold exactly the letter/accidental pairs, letter by letter, each letter's accidentals in order (strictly increasing in that product order) |
| KeySelect.WithoutDropsOnlyBanned | src/components/notes/KeySelect.tsx:18 | a filter keeps exactly the keys other than the banned one |
| KeySelect.WithoutShape | src/components/notes/KeySelect.tsx:18 | on an ordered list a filter keeps the order and removes exactly one key when the banned key is present, none otherwise |
| KeySelect.FilteredShape | src/components/notes/KeySelect.tsx:17-20 | the three filters keep exactly the keys other than Fb, E# and B#, keep the order, and shorten the list by one for each of those present |
| KeySelect.KeyOptions | src/components/notes/KeySelect.tsx:10-20 | a key is offered if and only if it is none of Fb, E# and B#; the 18 options come in product order (letter C to B, then flat, natural, sharp), so they are Cb, C, C#, Db, D, D#, Eb, E, F, F#, Gb, G, G#, Ab, A, A#, Bb, B |
| KeySelect.KeyOptionsShape | src/components/notes/KeySelect.tsx:10-20 | no key is offered twice; the first option is Cb and the last is B |
| KeySelect.NaturalsOffered | src/components/notes/KeySelect.tsx:6-20 | every natural key is offered |
| Invariants.InitialStateSatisfiesInvariant | src/context/ChordsContext.tsx:19-56 | when C major exists, the initial state has ordered ranges and a valid notation pair if and only if the level lists order the defaults |
| Invariants.NotationKeyKeepsNotation | src/context/ChordsContext.tsx:217-241 | when every offered key exists in some quality, choosing an offered key always ends in a valid notation pair |
| Invariants.NotationExtensionKeepsNotation | src/context/ChordsContext.tsx:242-264 | when keys survive a quality change as they are or respelled, choosing any extension keeps a valid notation pair valid |
| Invariants.NotationKeyStep | src/context/ChordsContext.tsx:217-241 | dispatching an offered key succeeds and leaves a valid notation pair, under the table property of `NotationRepairable` |
| Invariants.NotationExtensionStep | src/context/ChordsContext.tsx:242-264 | dispatching an extension succeeds and keeps a valid notation pair valid, under the respelling property of `NotationRepairable` |
| Invariants.ReduceKeepsNotation | src/context/ChordsContext.tsx:99-270 | when the key table lets every offered key exist in some quality and keys survive a quality change as they are or respelled, every successful transition keeps the notation pair valid |
| Invariants.RunKeepsInvariant | src/context/ChordsContext.tsx:99-270 | under the same table assumptions, any successful sequence of dispatchable actions keeps both ranges ordered and the notation pair valid |
| Invariants.SessionKeepsInvariant | src/context/ChordsContext.tsx:280-281 | from the provider's initial state, every successful session ends in a state with ordered ranges and a valid notation pair |

## Left out

- `ChordsContext.tsx` imports the level lists and the three generators (`generateKeysShuffled`, `generateExtensionsShuffled`, `generateChords`) from `src/functions/chordFunctions`, `changeEnharmonically` from `src/functions/noteFunctions`, and the key table `keysOrganized` from `src/data/chordData` (lines 9-17). None of these files is part of this model. They are parameters (`Library`). `generateChords` is taken to return the chords and the three bags only, `generateKeysShuffled` the two key bags only and `generateExtensionsShuffled` the extension bag only. The frame clauses (every other field unchanged after a range edit, an append or the initial state) rest on these spreads not overwriting other fields (ChordsContext.tsx lines 48-49, 53, 88-89, 93 and 174).
- Randomness and shuffle-bag behaviour come from those generators, so the model does not describe them. The generators are fixed functions of their arguments, so in the model a reset (`RESET_SETTINGS`) yields the same state every time, where `initialState()` draws new chords and bags on each call (ChordsContext.tsx lines 46-54). No property here depends on two draws being equal or different.
- `state.chords.slice(...)` returns a fresh list, but its elements are shared with the state, so the lock cases change the chord objects in place. The model writes the updated chord into a new list, so it treats the aliasing as a plain update.
- React plumbing is not modelled: context, `useReducer` scheduling, re-renders and stale closures. Dispatches from one handler are taken to run in order on the latest state.
- Not modelled: the rendered components, DOM access (the play button's brightness), timers, the wake lock, `matchMedia` and the 50 ms `setTimeout`.
- The metronome delay `(60 / Number(beatsPerMinute)) * 1000` is floating point and is not modelled. `beatsPerMinute` is kept as a string.
- `beatsPerChord` is `Endless` ('∞') or `Beats(n)`, where `Beats(n)` stands for the canonical decimal string of `n` ('0', '1', '12', ...). Other strings are not modelled: `SET_BPC` compares the string with `'1'` (line 107), so '01' would start at beat 0 where `Beats(1)` starts at beat 1, and `Number('')` is 0 while '' is not a canonical string.
- Metronome.RangeChange: the slider's string is taken as an already parsed integer; `Number` parsing and non-integer values are not modelled.
- The reducer's payloads are constructor fields, so an action with a missing payload (`undefined` through `!`) cannot be written.
- `ReducerContext`, through which `PlayControls.tsx` reads the state, is not part of this model. The player reads `chordList` from it (PlayControls.tsx lines 3 and 12-20) while `ChordsContext.tsx` holds `chords`; the model composes the player with the reducer of `ChordsContext.tsx` directly. Under that composition "next" at the end of the list moves the index twice, past the two-chord window, so turning a lock on right after it throws (PlayControls.NextAtEndThenKeyLockThrows). Whether the real app behaves so depends on `ReducerContext`, so this is a consequence of the composition, not a claim about the app.
- `Unknown(actionType)` stands for an action whose `type` is none of the 18 handled names; the model does not check that the string differs from them.
- `src/components/PlayControls.tsx` is an older copy of the player that nothing uses. `src/context/Context.tsx` and `src/pages/Notes.tsx` are not part of this model.
- The code has 18 action types, including `TOGGLE_SHOW_RANDOM_TOP_NOTE`, and the model follows the code.
- Turning a lock on with fewer than two chords from the index reads an undefined chord and throws. The model returns an error rather than treating it as a no-op.
- `DECREMENT_CHORD_INDEX` is not clamped in the reducer. Only "previous" guards it, and the model keeps that split.
- ChordsContext.InitialState, Invariants.InitialStateSatisfiesInvariant and ChordsContext.ReduceKeepsRanges state range order relative to the level lists passed in. They need the stated order of the defaults in those lists, because the lists themselves are not part of this model.
- Invariants.ReduceKeepsNotation, Invariants.RunKeepsInvariant and Invariants.SessionKeepsInvariant assume the key table properties named in `NotationRepairable`, because the table itself is not part of this model. They also assume (`Invariants.FromKeySelect`) that every `SET_NOTATION_KEY` payload is one of the key options, because the `Select` component and `keyToString`/`stringToKey` (KeySelect.tsx lines 2 and 23-29), which turn the chosen option back into a key, are not part of this model.

=== FILE: chord_types.dfy ===
/** Data model of the chord trainer: keys, extensions, chords, shuffle bags,
    the reducer's `ProgramState`, its actions, and the helper library the
    reducer calls but whose code lives outside this model. */
module ChordTypes {

  /** The seven note letters a key is built on. */
  datatype Letter = C | D | E | F | G | A | B

  /** A key's accidental; an absent accidental (`undefined`) is `Natural`. */
  datatype Accidental = Flat | Natural | Sharp

  datatype Key = Key(base: Letter, accidental: Accidental)

  function LetterChar(l: Letter): char {
    match l
    case C => 'C'
    case D => 'D'
    case E => 'E'
    case F => 'F'
    case G => 'G'
    case A => 'A'
    case B => 'B'
  }

  /** The accidental's spelling; a natural contributes nothing. */
  function AccidentalString(a: Accidental): string {
    match a
    case Flat => "b"
    case Natural => ""
    case Sharp => "#"
  }

  /** The string the key table is searched with: the letter followed by the
      accidental, the accidental omitted when natural. */
  function KeyString(k: Key): (s: string)
    ensures 1 <= |s| <= 2
    ensures s[0] == LetterChar(k.base)
    ensures |s| == 1 <==> k.accidental == Natural
    ensures |s| == 2 ==> s[1] == (if k.accidental == Flat then 'b' else '#')
  {
    [LetterChar(k.base)] + AccidentalString(k.accidental)
  }

  /** Two keys share a lookup string exactly when they are the same key, so
      searching the table by string is searching it by key. */
  lemma KeyStringInjective(k1: Key, k2: Key)
    ensures KeyString(k1) == KeyString(k2) <==> k1 == k2
  {
  }

  /** Chord quality (major or minor) plus its added tones, e.g. "7", "9". */
  datatype Extension = Extension(isMinor: bool, segments: seq<string>)

  /** A chord; `notes` is filled in by a note resolver outside this model. */
  datatype Chord = Chord(key: Key, extension: Extension, notes: seq<string>)

  /** Draw-without-replacement state of one sampler: the generators' `fresh`
      (not yet drawn) and `used` lists. */
  datatype ShuffleBag<T> = ShuffleBag(freshValues: seq<T>, usedValues: seq<T>)

  /** Difficulty and accidental levels are the string values of the
      `difficultyLevels` and `accidentalLevels` settings ('easy', 'medium', ..., and '0' .. '7'). */
  type DifficultyLevel = string
  type AccidentalLevel = string

  /** The beats-per-chord setting: the sentinel '∞' or a count of beats. */
  datatype BeatsPerChord = Endless | Beats(count: nat)

  datatype IndexRange = IndexRange(min: int, max: int)

  datatype ProgramState = ProgramState(
    // player settings
    isMuted: bool,
    difficultyMin: DifficultyLevel,
    difficultyMax: DifficultyLevel,
    accidentalsMin: AccidentalLevel,
    accidentalsMax: AccidentalLevel,
    showRandomTopNote: bool,
    randomTopNoteIndexRange: IndexRange,
    chordIndex: int,
    beatsPerChord: BeatsPerChord,
    beatsPerMinute: string,
    beat: int,
    keyLocked: bool,
    extensionLocked: bool,
    // notation page
    notationKey: Key,
    notationExtension: Extension,
    // generated material
    majorsShuffled: ShuffleBag<Key>,
    minorsShuffled: ShuffleBag<Key>,
    extensionsShuffled: ShuffleBag<Extension>,
    chords: seq<Chord>)

  /** The reducer's actions, each with the payload field it reads. */
  datatype Action =
    | SetBpc(bpc: BeatsPerChord)
    | SetBpm(bpm: string)
    | SetMuted(muted: bool)
    | SetDifficultyMin(difficultyMin: DifficultyLevel)
    | SetDifficultyMax(difficultyMax: DifficultyLevel)
    | SetAccidentalsMin(accidentalsMin: AccidentalLevel)
    | SetAccidentalsMax(accidentalsMax: AccidentalLevel)
    | ResetSettings
    | SetBeat(beat: int)
    | IncrementBeat
    | AppendChordList
    | IncrementChordIndex
    | DecrementChordIndex
    | SwitchKeyLock
    | SwitchExtensionLock
    | ToggleShowRandomTopNote
    | SetNotationKey(notationKey: Key)
    | SetNotationExtension(notationExtension: Extension)
    /** Any action whose `type` is none of the eighteen names above; the
        reducer's `default` branch returns the state unchanged. */
    | Unknown(actionType: string)

  /** One accidental level's entry of the key table: the key strings that
      exist as major keys and as minor keys. */
  datatype KeyBucket = KeyBucket(level: AccidentalLevel, major: seq<string>, minor: seq<string>)

  /** What `generateKeysShuffled` returns. */
  datatype KeyBags = KeyBags(majorsShuffled: ShuffleBag<Key>, minorsShuffled: ShuffleBag<Key>)

  /** What `generateChords` returns: the new chord list and the bags it drew from. */
  datatype Generated = Generated(
    chords: seq<Chord>,
    majorsShuffled: ShuffleBag<Key>,
    minorsShuffled: ShuffleBag<Key>,
    extensionsShuffled: ShuffleBag<Extension>)

  /** The data tables and generators the reducer uses. Their code is not part
      of this model; every operation takes them as a parameter. The boolean
      argument of `generateChords` is its `append` flag. */
  datatype Library = Library(
    difficultyLevels: seq<DifficultyLevel>,
    accidentalLevels: seq<AccidentalLevel>,
    keysOrganized: seq<KeyBucket>,
    changeEnharmonically: Key -> Key,
    generateKeysShuffled: ProgramState -> KeyBags,
    generateExtensionsShuffled: ProgramState -> ShuffleBag<Extension>,
    generateChords: (nat, ProgramState, bool) -> Generated)

  /** The only failure of the reducer: locking a window that holds fewer than
      two chords reads a property of an undefined chord. */
  datatype ReducerError = UndefinedChordInWindow

  datatype Result = Ok(state: ProgramState) | Err(error: ReducerError)
}

=== FILE: chords_context.dfy ===
/** The state machine of src/context/ChordsContext.tsx: the initial state,
    range resolution, lock switching, notation repair and the reducer that
    combines them. */
module ChordsContext {
  import opened ChordTypes

  // ---------------------------------------------------------------------
  // JavaScript array primitives the reducer relies on
  // ---------------------------------------------------------------------

  /** `Array.prototype.indexOf`: the position of the first occurrence of `x`,
      or -1 when `x` does not occur. */
  function IndexOf<T(==)>(list: seq<T>, x: T): (i: int)
    ensures -1 <= i < |list|
    ensures i >= 0 <==> x in list
    ensures i >= 0 ==> list[i] == x && x !in list[..i]
    decreases |list|
  {
    if |list| == 0 then -1
    else if list[0] == x then 0
    else
      var j := IndexOf(list[1..], x);
      assert j >= 0 ==> list[1..][..j] == list[1..j + 1];
      if j < 0 then -1 else j + 1
  }

  /** Where `Array.prototype.slice` starts or stops for a requested position:
      negative positions count back from the end, and both are clamped. */
  function SliceIndex(i: int, len: nat): (k: nat)
    ensures k <= len
    ensures 0 <= i <= len ==> k == i
  {
    if i < 0 then (if len + i < 0 then 0 else len + i)
    else if i > len then len
    else i
  }

  /** `Array.prototype.slice(start, end)`. */
  function Slice<T>(s: seq<T>, start: int, end: int): (r: seq<T>)
    ensures |r| <= |s|
    ensures 0 <= start <= end <= |s| ==> r == s[start..end]
    ensures 0 <= start <= |s| && start <= end ==> r == s[start..if end <= |s| then end else |s|]
    ensures 0 <= start && |s| <= start ==> r == []
  {
    var from := SliceIndex(start, |s|);
    var to := SliceIndex(end, |s|);
    if from < to then s[from..to] else []
  }

  // ---------------------------------------------------------------------
  // Ranges
  // ---------------------------------------------------------------------

  /** The four range fields, named as the reducer's `payloadKey`/`stateKey`. */
  datatype RangeKey = DifficultyMin | DifficultyMax | AccidentalsMin | AccidentalsMax

  /** The bound an edit of `k` may push along. */
  function Other(k: RangeKey): RangeKey {
    match k
    case DifficultyMin => DifficultyMax
    case DifficultyMax => DifficultyMin
    case AccidentalsMin => AccidentalsMax
    case AccidentalsMax => AccidentalsMin
  }

  /** The reducer's `inverse` flag: set when the edited bound is a maximum. */
  predicate IsMax(k: RangeKey) {
    k == DifficultyMax || k == AccidentalsMax
  }

  predicate IsDifficulty(k: RangeKey) {
    k == DifficultyMin || k == DifficultyMax
  }

  /** The ordered level list that ranks the values of `k`. */
  function LevelList(lib: Library, k: RangeKey): seq<string> {
    if IsDifficulty(k) then lib.difficultyLevels else lib.accidentalLevels
  }

  function Get(s: ProgramState, k: RangeKey): string {
    match k
    case DifficultyMin => s.difficultyMin
    case DifficultyMax => s.difficultyMax
    case AccidentalsMin => s.accidentalsMin
    case AccidentalsMax => s.accidentalsMax
  }

  function Put(s: ProgramState, k: RangeKey, v: string): (r: ProgramState)
    ensures Get(r, k) == v
    ensures forall j :: j != k ==> Get(r, j) == Get(s, j)
    ensures SameSettingsAndNotation(s, r) && r.chordIndex == s.chordIndex
  {
    match k
    case DifficultyMin => s.(difficultyMin := v)
    case DifficultyMax => s.(difficultyMax := v)
    case AccidentalsMin => s.(accidentalsMin := v)
    case AccidentalsMax => s.(accidentalsMax := v)
  }

  predicate DifficultyOrdered(lib: Library, s: ProgramState) {
    IndexOf(lib.difficultyLevels, s.difficultyMin) <= IndexOf(lib.difficultyLevels, s.difficultyMax)
  }

  predicate AccidentalsOrdered(lib: Library, s: ProgramState) {
    IndexOf(lib.accidentalLevels, s.accidentalsMin) <= IndexOf(lib.accidentalLevels, s.accidentalsMax)
  }

  /** Neither range has its minimum ranked above its maximum. */
  predicate RangesOrdered(lib: Library, s: ProgramState) {
    DifficultyOrdered(lib, s) && AccidentalsOrdered(lib, s)
  }

  /** The level lists rank the initial ranges ('easy'..'medium', '0'..'7')
      in order. */
  predicate LevelsOrdered(lib: Library) {
    && IndexOf(lib.difficultyLevels, "easy") <= IndexOf(lib.difficultyLevels, "medium")
    && IndexOf(lib.accidentalLevels, "0") <= IndexOf(lib.accidentalLevels, "7")
  }

  /** The fields no range edit, chord generation or index move touches. */
  predicate SameSettingsAndNotation(s: ProgramState, t: ProgramState) {
    && t.isMuted == s.isMuted
    && t.showRandomTopNote == s.showRandomTopNote
    && t.randomTopNoteIndexRange == s.randomTopNoteIndexRange
    && t.beatsPerChord == s.beatsPerChord
    && t.beatsPerMinute == s.beatsPerMinute
    && t.beat == s.beat
    && t.keyLocked == s.keyLocked
    && t.extensionLocked == s.extensionLocked
    && t.notationKey == s.notationKey
    && t.notationExtension == s.notationExtension
  }

  /** Spreads the result of `generateChords` over the state. */
  function Regenerated(s: ProgramState, g: Generated): (r: ProgramState)
    ensures forall k :: Get(r, k) == Get(s, k)
    ensures SameSettingsAndNotation(s, r) && r.chordIndex == s.chordIndex
  {
    s.(chords := g.chords, majorsShuffled := g.majorsShuffled,
       minorsShuffled := g.minorsShuffled, extensionsShuffled := g.extensionsShuffled)
  }

  /** Rebuilds the three shuffle bags from the ranges of `s`; both generators
      see the same state. */
  function WithFreshBags(lib: Library, s: ProgramState): (r: ProgramState)
    ensures forall k :: Get(r, k) == Get(s, k)
    ensures SameSettingsAndNotation(s, r) && r.chordIndex == s.chordIndex
  {
    var keys := lib.generateKeysShuffled(s);
    s.(majorsShuffled := keys.majorsShuffled, minorsShuffled := keys.minorsShuffled,
       extensionsShuffled := lib.generateExtensionsShuffled(s))
  }

  /** `getStateWithUpdatedRangeAndChords`: stores the edited bound, pushes the
      other bound onto the payload when the edit would cross it, rebuilds the
      bags and two chords, and rewinds to the first chord. */
  function StateWithUpdatedRange(lib: Library, s: ProgramState, payloadKey: RangeKey, payload: string): (r: ProgramState)
    ensures Get(r, payloadKey) == payload
    ensures !IsMax(payloadKey) ==>
      Get(r, Other(payloadKey)) ==
        (if IndexOf(LevelList(lib, payloadKey), payload) > IndexOf(LevelList(lib, payloadKey), Get(s, Other(payloadKey)))
         then payload else Get(s, Other(payloadKey)))
    ensures IsMax(payloadKey) ==>
      Get(r, Other(payloadKey)) ==
        (if IndexOf(LevelList(lib, payloadKey), payload) <= IndexOf(LevelList(lib, payloadKey), Get(s, Other(payloadKey)))
         then payload else Get(s, Other(payloadKey)))
    ensures IsDifficulty(payloadKey) ==>
      DifficultyOrdered(lib, r) && r.accidentalsMin == s.accidentalsMin && r.accidentalsMax == s.accidentalsMax
    ensures !IsDifficulty(payloadKey) ==>
      AccidentalsOrdered(lib, r) && r.difficultyMin == s.difficultyMin && r.difficultyMax == s.difficultyMax
    ensures r.chordIndex == 0
    ensures SameSettingsAndNotation(s, r)
  {
    var stateKey := Other(payloadKey);
    var list := LevelList(lib, payloadKey);
    var stateValue := Get(s, stateKey);
    var payloadIsGreater := IndexOf(list, payload) > IndexOf(list, stateValue);
    var newStateValue := if IsMax(payloadKey) != payloadIsGreater then payload else stateValue;
    var s1 := Put(Put(s, payloadKey, payload), stateKey, newStateValue);
    var s2 := WithFreshBags(lib, s1);
    Regenerated(s2, lib.generateChords(2, s2, false)).(chordIndex := 0)
  }

  // ---------------------------------------------------------------------
  // Initial state
  // ---------------------------------------------------------------------

  /** `initialState`: the default settings, bags built from the default ranges
      and two generated chords. */
  function InitialState(lib: Library): (r: ProgramState)
    ensures !r.isMuted && r.showRandomTopNote && r.randomTopNoteIndexRange == IndexRange(7, 14)
    ensures r.difficultyMin == "easy" && r.difficultyMax == "medium"
    ensures r.accidentalsMin == "0" && r.accidentalsMax == "7"
    ensures r.chordIndex == 0 && r.beat == 0 && r.beatsPerChord == Beats(4) && r.beatsPerMinute == "86"
    ensures !r.keyLocked && !r.extensionLocked
    ensures r.notationKey == Key(C, Natural) && r.notationExtension == Extension(false, ["7"])
    ensures RangesOrdered(lib, r) <==> LevelsOrdered(lib)
  {
    var empty := ProgramState(
      isMuted := false,
      difficultyMin := "easy",
      difficultyMax := "medium",
      accidentalsMin := "0",
      accidentalsMax := "7",
      showRandomTopNote := true,
      randomTopNoteIndexRange := IndexRange(7, 14),
      chordIndex := 0,
      beatsPerChord := Beats(4),
      beatsPerMinute := "86",
      beat := 0,
      keyLocked := false,
      extensionLocked := false,
      notationKey := Key(C, Natural),
      notationExtension := Extension(false, ["7"]),
      majorsShuffled := ShuffleBag([], []),
      minorsShuffled := ShuffleBag([], []),
      extensionsShuffled := ShuffleBag([], []),
      chords := []);
    var withBags := WithFreshBags(lib, empty);
    Regenerated(withBags, lib.generateChords(2, withBags, false))
  }

  // ---------------------------------------------------------------------
  // Key table
  // ---------------------------------------------------------------------

  function MajorOrMinor(bucket: KeyBucket, isMinor: bool): seq<string> {
    if isMinor then bucket.minor else bucket.major
  }

  /** A key string exists for a quality when some accidental level lists it. */
  predicate KeyExists(table: seq<KeyBucket>, keyString: string, isMinor: bool) {
    exists i :: 0 <= i < |table| && keyString in MajorOrMinor(table[i], isMinor)
  }

  /** The reducer's search loop: visits every accidental level, never stops
      early, and sets the flag when the level lists the key string. */
  method SearchKeysOrganized(table: seq<KeyBucket>, keyString: string, isMinor: bool) returns (keyExists: bool)
    ensures keyExists <==> KeyExists(table, keyString, isMinor)
  {
    keyExists := false;
    for i := 0 to |table|
      invariant keyExists <==> exists j :: 0 <= j < i && keyString in MajorOrMinor(table[j], isMinor)
    {
      var keys := MajorOrMinor(table[i], isMinor);
      if keyString in keys {
        keyExists := true;
      }
    }
  }

  predicate KeyValid(lib: Library, k: Key, isMinor: bool) {
    KeyExists(lib.keysOrganized, KeyString(k), isMinor)
  }

  /** The notation page shows a key that exists in the shown quality. */
  predicate NotationConsistent(lib: Library, s: ProgramState) {
    KeyValid(lib, s.notationKey, s.notationExtension.isMinor)
  }

  // ---------------------------------------------------------------------
  // Notation repair
  // ---------------------------------------------------------------------

  /** SET_NOTATION_KEY: stores the key; when the key does not exist in the
      current quality, the quality flips and the added tones are dropped. */
  function WithNotationKey(lib: Library, s: ProgramState, k: Key): (r: ProgramState)
    ensures r.notationKey == k
    ensures KeyValid(lib, k, s.notationExtension.isMinor) ==> r.notationExtension == s.notationExtension
    ensures !KeyValid(lib, k, s.notationExtension.isMinor) ==>
      r.notationExtension == Extension(!s.notationExtension.isMinor, [])
    ensures NotationConsistent(lib, r) <==> KeyValid(lib, k, false) || KeyValid(lib, k, true)
    ensures r == s.(notationKey := r.notationKey, notationExtension := r.notationExtension)
  {
    var extension := s.notationExtension;
    var keyExists := KeyExists(lib.keysOrganized, KeyString(k), extension.isMinor);
    s.(notationKey := k,
       notationExtension := if keyExists then extension else Extension(!extension.isMinor, []))
  }

  /** SET_NOTATION_EXTENSION: stores the extension; when the current key does
      not exist in the new quality, the key is respelled enharmonically. */
  function WithNotationExtension(lib: Library, s: ProgramState, e: Extension): (r: ProgramState)
    ensures r.notationExtension == e
    ensures KeyValid(lib, s.notationKey, e.isMinor) ==> r.notationKey == s.notationKey
    ensures !KeyValid(lib, s.notationKey, e.isMinor) ==> r.notationKey == lib.changeEnharmonically(s.notationKey)
    ensures NotationConsistent(lib, r) <==>
      KeyValid(lib, s.notationKey, e.isMinor) || KeyValid(lib, lib.changeEnharmonically(s.notationKey), e.isMinor)
    ensures r == s.(notationKey := r.notationKey, notationExtension := r.notationExtension)
  {
    var key := s.notationKey;
    var keyExists := KeyExists(lib.keysOrganized, KeyString(key), e.isMinor);
    s.(notationKey := if keyExists then key else lib.changeEnharmonically(key),
       notationExtension := e)
  }

  // ---------------------------------------------------------------------
  // The reducer
  // ---------------------------------------------------------------------

  /** The two chords shown from `chordIndex` on, as `slice` returns them. */
  function LockWindow(s: ProgramState): seq<Chord> {
    Slice(s.chords, s.chordIndex, s.chordIndex + 2)
  }

  /** Turning a lock on writes into the second chord of the window, which is
      undefined when the window is short. */
  predicate LockThrows(s: ProgramState, a: Action) {
    && ((a.SwitchKeyLock? && !s.keyLocked) || (a.SwitchExtensionLock? && !s.extensionLocked))
    && |LockWindow(s)| < 2
  }

  function Reduce(lib: Library, s: ProgramState, a: Action): (r: Result)
    ensures r.Err? <==> LockThrows(s, a)
    ensures a.Unknown? ==> r == Ok(s)
  {
    match a
    case SetBpc(bpc) => Ok(s.(beatsPerChord := bpc, beat := if bpc == Beats(1) then 1 else 0))
    case SetBpm(bpm) => Ok(s.(beatsPerMinute := bpm))
    case SetMuted(muted) => Ok(s.(isMuted := muted))
    case SetDifficultyMin(v) => Ok(StateWithUpdatedRange(lib, s, DifficultyMin, v))
    case SetDifficultyMax(v) => Ok(StateWithUpdatedRange(lib, s, DifficultyMax, v))
    case SetAccidentalsMin(v) => Ok(StateWithUpdatedRange(lib, s, AccidentalsMin, v))
    case SetAccidentalsMax(v) => Ok(StateWithUpdatedRange(lib, s, AccidentalsMax, v))
    case ResetSettings => Ok(InitialState(lib))
    case SetBeat(b) => Ok(s.(beat := b))
    case IncrementBeat => Ok(s.(beat := s.beat + 1))
    case AppendChordList =>
      Ok(Regenerated(s, lib.generateChords(1, s, true)).(chordIndex := s.chordIndex + 1))
    case IncrementChordIndex => Ok(s.(chordIndex := s.chordIndex + 1))
    case DecrementChordIndex => Ok(s.(chordIndex := s.chordIndex - 1))
    case SwitchKeyLock =>
      var chords := LockWindow(s);
      if s.keyLocked then
        Ok(s.(chords := chords, keyLocked := false, chordIndex := 0))
      else if |chords| < 2 then
        Err(UndefinedChordInWindow)
      else
        Ok(s.(chords := chords[1 := chords[1].(key := chords[0].key)], keyLocked := true, chordIndex := 0))
    case SwitchExtensionLock =>
      var chords := LockWindow(s);
      if s.extensionLocked then
        Ok(s.(chords := chords, extensionLocked := false, chordIndex := 0))
      else if |chords| < 2 then
        Err(UndefinedChordInWindow)
      else
        Ok(s.(chords := chords[1 := chords[1].(extension := chords[0].extension)], extensionLocked := true, chordIndex := 0))
    case ToggleShowRandomTopNote => Ok(s.(showRandomTopNote := !s.showRandomTopNote))
    case SetNotationKey(k) => Ok(WithNotationKey(lib, s, k))
    case SetNotationExtension(e) => Ok(WithNotationExtension(lib, s, e))
    case Unknown(_) => Ok(s)
  }

  /** Dispatches the actions in order; a throwing action stops the run. */
  function Run(lib: Library, s: ProgramState, actions: seq<Action>): (r: Result)
    ensures (forall i :: 0 <= i < |actions| ==> !actions[i].SwitchKeyLock? && !actions[i].SwitchExtensionLock?) ==> r.Ok?
    decreases |actions|
  {
    if |actions| == 0 then Ok(s)
    else
      match Reduce(lib, s, actions[0])
      case Err(e) => Err(e)
      case Ok(t) => Run(lib, t, actions[1..])
  }

  // ---------------------------------------------------------------------
  // Properties of single transitions
  // ---------------------------------------------------------------------

  /** SET_BPC stores the setting and restarts the beat count: at 1 for a
      one-beat chord, else at 0. Nothing else changes. */
  lemma SetBpcEffect(lib: Library, s: ProgramState, bpc: BeatsPerChord)
    ensures Reduce(lib, s, SetBpc(bpc)).Ok?
    ensures var t := Reduce(lib, s, SetBpc(bpc)).state;
      && t.beatsPerChord == bpc
      && (t.beat == 1 <==> bpc == Beats(1))
      && (t.beat == 0 <==> bpc != Beats(1))
      && t == s.(beatsPerChord := bpc, beat := t.beat)
  {
  }

  /** The settings cases: tempo, mute and the top-note toggle each write
      their one field and leave every other field alone; a reset replaces the
      whole state with the initial state. */
  lemma SimpleActionsEffect(lib: Library, s: ProgramState, bpm: string, muted: bool)
    ensures Reduce(lib, s, SetBpm(bpm)) == Ok(s.(beatsPerMinute := bpm))
    ensures Reduce(lib, s, SetMuted(muted)) == Ok(s.(isMuted := muted))
    ensures Reduce(lib, s, ToggleShowRandomTopNote) == Ok(s.(showRandomTopNote := !s.showRandomTopNote))
    ensures Reduce(lib, s, ResetSettings) == Ok(InitialState(lib))
  {
  }

  /** The two beat cases write the beat and nothing else; an increment is
      unbounded. */
  lemma BeatActionsEffect(lib: Library, s: ProgramState, b: int)
    ensures Reduce(lib, s, SetBeat(b)) == Ok(s.(beat := b))
    ensures Reduce(lib, s, IncrementBeat) == Ok(s.(beat := s.beat + 1))
  {
  }

  /** The two notation actions hand their payload to the repair functions. */
  lemma NotationActionsEffect(lib: Library, s: ProgramState, k: Key, e: Extension)
    ensures Reduce(lib, s, SetNotationKey(k)) == Ok(WithNotationKey(lib, s, k))
    ensures Reduce(lib, s, SetNotationExtension(e)) == Ok(WithNotationExtension(lib, s, e))
  {
  }

  /** Every range edit leaves both ranges ordered when they were ordered,
      touches only the edited range, and rewinds to the first chord. */
  lemma RangeActionKeepsOrder(lib: Library, s: ProgramState, a: Action)
    requires IsRangeAction(a)
    requires RangesOrdered(lib, s)
    ensures Reduce(lib, s, a).Ok?
    ensures RangesOrdered(lib, Reduce(lib, s, a).state)
    ensures Reduce(lib, s, a).state.chordIndex == 0
    ensures SameSettingsAndNotation(s, Reduce(lib, s, a).state)
  {
  }

  /** A range edit draws everything new from the edited ranges: both bag
      generators see the state with the new bounds, `generateChords` is asked
      for two chords from that state with the new bags, and the chords and
      bags it returns are the ones stored. */
  lemma RangeEditRegenerates(lib: Library, s: ProgramState, k: RangeKey, v: string)
    ensures var r := StateWithUpdatedRange(lib, s, k, v);
      var edited := Put(Put(s, k, v), Other(k), Get(r, Other(k)));
      var bagged := WithFreshBags(lib, edited);
      var g := lib.generateChords(2, bagged, false);
      && bagged.majorsShuffled == lib.generateKeysShuffled(edited).majorsShuffled
      && bagged.minorsShuffled == lib.generateKeysShuffled(edited).minorsShuffled
      && bagged.extensionsShuffled == lib.generateExtensionsShuffled(edited)
      && r.chords == g.chords
      && r.majorsShuffled == g.majorsShuffled
      && r.minorsShuffled == g.minorsShuffled
      && r.extensionsShuffled == g.extensionsShuffled
  {
  }

  /** SET_DIFFICULTY_MIN: the minimum becomes the payload, and the maximum
      follows it exactly when the payload ranks above the old maximum. */
  lemma SetDifficultyMinPushesMax(lib: Library, s: ProgramState, v: string)
    ensures var t := Reduce(lib, s, SetDifficultyMin(v)).state;
      && t.difficultyMin == v
      && t.difficultyMax == (if IndexOf(lib.difficultyLevels, v) > IndexOf(lib.difficultyLevels, s.difficultyMax) then v else s.difficultyMax)
  {
    var r := StateWithUpdatedRange(lib, s, DifficultyMin, v);
    assert Reduce(lib, s, SetDifficultyMin(v)) == Ok(r);
  }

  /** SET_ACCIDENTALS_MIN: the same rule on the accidental levels. */
  lemma SetAccidentalsMinPushesMax(lib: Library, s: ProgramState, v: string)
    ensures var t := Reduce(lib, s, SetAccidentalsMin(v)).state;
      && t.accidentalsMin == v
      && t.accidentalsMax == (if IndexOf(lib.accidentalLevels, v) > IndexOf(lib.accidentalLevels, s.accidentalsMax) then v else s.accidentalsMax)
  {
    var r := StateWithUpdatedRange(lib, s, AccidentalsMin, v);
    assert Reduce(lib, s, SetAccidentalsMin(v)) == Ok(r);
  }

  /** SET_DIFFICULTY_MAX: the maximum becomes the payload, and the minimum
      follows it exactly when the payload ranks at or below the old minimum. */
  lemma SetDifficultyMaxPushesMin(lib: Library, s: ProgramState, v: string)
    ensures var t := Reduce(lib, s, SetDifficultyMax(v)).state;
      && t.difficultyMax == v
      && t.difficultyMin == (if IndexOf(lib.difficultyLevels, v) <= IndexOf(lib.difficultyLevels, s.difficultyMin) then v else s.difficultyMin)
  {
    var r := StateWithUpdatedRange(lib, s, DifficultyMax, v);
    assert Reduce(lib, s, SetDifficultyMax(v)) == Ok(r);
  }

  /** SET_ACCIDENTALS_MAX: the same rule on the accidental levels. */
  lemma SetAccidentalsMaxPushesMin(lib: Library, s: ProgramState, v: string)
    ensures var t := Reduce(lib, s, SetAccidentalsMax(v)).state;
      && t.accidentalsMax == v
      && t.accidentalsMin == (if IndexOf(lib.accidentalLevels, v) <= IndexOf(lib.accidentalLevels, s.accidentalsMin) then v else s.accidentalsMin)
  {
    var r := StateWithUpdatedRange(lib, s, AccidentalsMax, v);
    assert Reduce(lib, s, SetAccidentalsMax(v)) == Ok(r);
  }

  /** The index actions move the chord index by exactly one, unclamped;
      appending a chord also moves it by one. */
  lemma IndexActionsStep(lib: Library, s: ProgramState)
    ensures Reduce(lib, s, IncrementChordIndex) == Ok(s.(chordIndex := s.chordIndex + 1))
    ensures Reduce(lib, s, DecrementChordIndex) == Ok(s.(chordIndex := s.chordIndex - 1))
    ensures Reduce(lib, s, AppendChordList).Ok?
    ensures var t := Reduce(lib, s, AppendChordList).state;
      && t.chordIndex == s.chordIndex + 1
      && SameSettingsAndNotation(s, t)
      && RangesOrdered(lib, t) == RangesOrdered(lib, s)
  {
  }

  /** APPEND_CHORD_LIST stores the chords and bags `generateChords` returns
      when asked to append one chord to the current state, and moves the
      index on by one; nothing else changes. */
  lemma AppendDraws(lib: Library, s: ProgramState)
    ensures var g := lib.generateChords(1, s, true);
      Reduce(lib, s, AppendChordList) == Ok(s.(chords := g.chords, majorsShuffled := g.majorsShuffled,
        minorsShuffled := g.minorsShuffled, extensionsShuffled := g.extensionsShuffled,
        chordIndex := s.chordIndex + 1))
  {
  }

  /** With a full window in view, SWITCH_KEY_LOCK keeps just that window,
      copies the first key onto the second chord when the lock turns on,
      flips the lock and rewinds. */
  lemma SwitchKeyLockEffect(lib: Library, s: ProgramState)
    requires 0 <= s.chordIndex && s.chordIndex + 2 <= |s.chords|
    ensures Reduce(lib, s, SwitchKeyLock).Ok?
    ensures var t := Reduce(lib, s, SwitchKeyLock).state;
      var i := s.chordIndex;
      && |t.chords| == 2
      && t.chords[0] == s.chords[i]
      && t.chords[1].extension == s.chords[i + 1].extension
      && t.chords[1].notes == s.chords[i + 1].notes
      && t.chords[1].key == (if s.keyLocked then s.chords[i + 1].key else s.chords[i].key)
      && t.keyLocked == !s.keyLocked
      && t.chordIndex == 0
      && t == s.(chords := t.chords, keyLocked := t.keyLocked, chordIndex := 0)
  {
    assert LockWindow(s) == s.chords[s.chordIndex..s.chordIndex + 2];
  }

  /** The extension lock mirrors the key lock on the chord's extension. */
  lemma SwitchExtensionLockEffect(lib: Library, s: ProgramState)
    requires 0 <= s.chordIndex && s.chordIndex + 2 <= |s.chords|
    ensures Reduce(lib, s, SwitchExtensionLock).Ok?
    ensures var t := Reduce(lib, s, SwitchExtensionLock).state;
      var i := s.chordIndex;
      && |t.chords| == 2
      && t.chords[0] == s.chords[i]
      && t.chords[1].key == s.chords[i + 1].key
      && t.chords[1].notes == s.chords[i + 1].notes
      && t.chords[1].extension == (if s.extensionLocked then s.chords[i + 1].extension else s.chords[i].extension)
      && t.extensionLocked == !s.extensionLocked
      && t.chordIndex == 0
      && t == s.(chords := t.chords, extensionLocked := t.extensionLocked, chordIndex := 0)
  {
    assert LockWindow(s) == s.chords[s.chordIndex..s.chordIndex + 2];
  }

  /** From a non-negative index, turning a lock on throws exactly when fewer
      than two chords remain from the index on. */
  lemma LockThrowsIffShortWindow(s: ProgramState)
    requires 0 <= s.chordIndex
    ensures LockThrows(s, SwitchKeyLock) <==> !s.keyLocked && s.chordIndex + 2 > |s.chords|
    ensures LockThrows(s, SwitchExtensionLock) <==> !s.extensionLocked && s.chordIndex + 2 > |s.chords|
  {
    if s.chordIndex + 2 <= |s.chords| {
      assert |LockWindow(s)| == 2;
    }
  }

  /** Turning a lock off never throws, even at the end of the list: the
      chords become what is left of the two-chord window from the index on,
      which is shorter than two chords there. */
  lemma LockOffKeepsWindow(lib: Library, s: ProgramState)
    requires 0 <= s.chordIndex
    ensures var i, n := s.chordIndex, |s.chords|;
      var window := if n <= i then [] else s.chords[i..if i + 2 <= n then i + 2 else n];
      && (s.keyLocked ==>
            Reduce(lib, s, SwitchKeyLock) == Ok(s.(chords := window, keyLocked := false, chordIndex := 0)))
      && (s.extensionLocked ==>
            Reduce(lib, s, SwitchExtensionLock) == Ok(s.(chords := window, extensionLocked := false, chordIndex := 0)))
  {
    var i, n := s.chordIndex, |s.chords|;
    if i < n {
      assert LockWindow(s) == s.chords[i..if i + 2 <= n then i + 2 else n];
    } else {
      assert LockWindow(s) == [];
    }
  }

  /** Only the notation actions and a reset touch the notation pair. */
  lemma OtherActionsKeepNotation(lib: Library, s: ProgramState, a: Action)
    requires !a.SetNotationKey? && !a.SetNotationExtension? && !a.ResetSettings?
    ensures Reduce(lib, s, a).Ok? ==>
      Reduce(lib, s, a).state.notationKey == s.notationKey
      && Reduce(lib, s, a).state.notationExtension == s.notationExtension
  {
  }

  // ---------------------------------------------------------------------
  // Range invariant over whole runs
  // ---------------------------------------------------------------------

  predicate IsRangeAction(a: Action) {
    a.SetDifficultyMin? || a.SetDifficultyMax? || a.SetAccidentalsMin? || a.SetAccidentalsMax?
  }

  /** Only the range actions and a reset touch the four range bounds. */
  lemma OtherActionsKeepRangeBounds(lib: Library, s: ProgramState, a: Action)
    requires !IsRangeAction(a) && !a.ResetSettings?
    ensures Reduce(lib, s, a).Ok? ==>
      && Reduce(lib, s, a).state.difficultyMin == s.difficultyMin
      && Reduce(lib, s, a).state.difficultyMax == s.difficultyMax
      && Reduce(lib, s, a).state.accidentalsMin == s.accidentalsMin
      && Reduce(lib, s, a).state.accidentalsMax == s.accidentalsMax
  {
  }

  /** No transition breaks the order of the ranges, provided the level lists
      rank the default ranges in order (a reset restores those). */
  lemma ReduceKeepsRanges(lib: Library, s: ProgramState, a: Action)
    requires LevelsOrdered(lib)
    requires RangesOrdered(lib, s)
    ensures Reduce(lib, s, a).Ok? ==> RangesOrdered(lib, Reduce(lib, s, a).state)
  {
    if IsRangeAction(a) {
      RangeActionKeepsOrder(lib, s, a);
    } else if a.ResetSettings? {
      assert Reduce(lib, s, a) == Ok(InitialState(lib));
    } else {
      OtherActionsKeepRangeBounds(lib, s, a);
    }
  }

  /** For every sequence of actions, min never ranks above max in either range. */
  lemma {:induction false} RunKeepsRanges(lib: Library, s: ProgramState, actions: seq<Action>)
    requires LevelsOrdered(lib)
    requires RangesOrdered(lib, s)
    ensures Run(lib, s, actions).Ok? ==> RangesOrdered(lib, Run(lib, s, actions).state)
    decreases |actions|
  {
    if |actions| > 0 && Reduce(lib, s, actions[0]).Ok? {
      ReduceKeepsRanges(lib, s, actions[0]);
      RunKeepsRanges(lib, Reduce(lib, s, actions[0]).state, actions[1..]);
    }
  }
}

=== FILE: invariants.dfy ===
/** Whole-session invariants of the reducer in src/context/ChordsContext.tsx:
    ordered ranges and a valid notation pair, from the initial state through
    any sequence of actions the pages can dispatch. */
module Invariants {
  import opened ChordTypes
  import opened ChordsContext
  import KeySelect

  /** What the key table and the respelling helper must provide for the
      notation repair to succeed: the default C major exists, every key the
      key select offers exists in at least one quality, and a key that exists
      in one quality exists in the other or respelled. The options are
      exactly the keys other than Fb, E# and B# (`KeySelect.KeyOptions`). */
  ghost predicate NotationRepairable(lib: Library) {
    && KeyValid(lib, Key(C, Natural), false)
    && (forall k :: !KeySelect.NonExistent(k) ==> KeyValid(lib, k, false) || KeyValid(lib, k, true))
    && (forall k: Key, q: bool {:trigger SwitchesQuality(lib, k, q)} :: KeyValid(lib, k, q) ==> SwitchesQuality(lib, k, q))
  }

  /** Key `k` of quality `q` survives a change to the other quality, as it
      is or respelled. */
  predicate SwitchesQuality(lib: Library, k: Key, q: bool) {
    KeyValid(lib, k, !q) || KeyValid(lib, lib.changeEnharmonically(k), !q)
  }

  /** The key page only dispatches keys its select offers. */
  predicate FromKeySelect(a: Action) {
    a.SetNotationKey? ==> a.notationKey in KeySelect.KeyOptions()
  }

  /** Both ranges ordered and the notation pair valid. */
  predicate SessionInvariant(lib: Library, s: ProgramState) {
    RangesOrdered(lib, s) && NotationConsistent(lib, s)
  }

  /** The initial state (and so every reset) satisfies the invariant exactly
      when the level lists order the default ranges, given C major exists. */
  lemma InitialStateSatisfiesInvariant(lib: Library)
    requires KeyValid(lib, Key(C, Natural), false)
    ensures SessionInvariant(lib, InitialState(lib)) <==> LevelsOrdered(lib)
  {
  }

  /** Choosing an offered key leaves a valid notation pair. */
  lemma NotationKeyKeepsNotation(lib: Library, s: ProgramState, k: Key)
    requires NotationRepairable(lib)
    requires k in KeySelect.KeyOptions()
    ensures NotationConsistent(lib, WithNotationKey(lib, s, k))
  {
    assert KeyValid(lib, k, false) || KeyValid(lib, k, true);
  }

  /** Choosing an extension keeps a valid notation pair valid. */
  lemma NotationExtensionKeepsNotation(lib: Library, s: ProgramState, e: Extension)
    requires NotationRepairable(lib)
    requires NotationConsistent(lib, s)
    ensures NotationConsistent(lib, WithNotationExtension(lib, s, e))
  {
    var k := s.notationKey;
    var q := s.notationExtension.isMinor;
    if e.isMinor != q {
      assert SwitchesQuality(lib, k, q);
    }
  }

  /** Dispatching an offered key keeps the notation pair valid. */
  lemma NotationKeyStep(lib: Library, s: ProgramState, k: Key)
    requires NotationRepairable(lib)
    requires k in KeySelect.KeyOptions()
    ensures Reduce(lib, s, SetNotationKey(k)) == Ok(WithNotationKey(lib, s, k))
    ensures NotationConsistent(lib, Reduce(lib, s, SetNotationKey(k)).state)
  {
    NotationActionsEffect(lib, s, k, s.notationExtension);
    NotationKeyKeepsNotation(lib, s, k);
  }

  /** Dispatching an extension keeps a valid notation pair valid. */
  lemma NotationExtensionStep(lib: Library, s: ProgramState, e: Extension)
    requires NotationRepairable(lib)
    requires NotationConsistent(lib, s)
    ensures Reduce(lib, s, SetNotationExtension(e)) == Ok(WithNotationExtension(lib, s, e))
    ensures NotationConsistent(lib, Reduce(lib, s, SetNotationExtension(e)).state)
  {
    NotationActionsEffect(lib, s, s.notationKey, e);
    NotationExtensionKeepsNotation(lib, s, e);
  }

  /** One transition keeps the notation pair valid. */
  lemma ReduceKeepsNotation(lib: Library, s: ProgramState, a: Action)
    requires NotationRepairable(lib)
    requires NotationConsistent(lib, s)
    requires FromKeySelect(a)
    ensures Reduce(lib, s, a).Ok? ==> NotationConsistent(lib, Reduce(lib, s, a).state)
  {
    if a.SetNotationKey? {
      NotationKeyStep(lib, s, a.notationKey);
    } else if a.SetNotationExtension? {
      NotationExtensionStep(lib, s, a.notationExtension);
    } else if a.ResetSettings? {
      SimpleActionsEffect(lib, s, "", false);
    } else {
      OtherActionsKeepNotation(lib, s, a);
    }
  }

  /** Every sequence of dispatchable actions keeps both ranges ordered and
      the notation pair valid. */
  lemma {:induction false} RunKeepsInvariant(lib: Library, s: ProgramState, actions: seq<Action>)
    requires LevelsOrdered(lib) && NotationRepairable(lib)
    requires SessionInvariant(lib, s)
    requires forall i :: 0 <= i < |actions| ==> FromKeySelect(actions[i])
    ensures Run(lib, s, actions).Ok? ==> SessionInvariant(lib, Run(lib, s, actions).state)
    decreases |actions|
  {
    if |actions| > 0 && Reduce(lib, s, actions[0]).Ok? {
      ReduceKeepsRanges(lib, s, actions[0]);
      ReduceKeepsNotation(lib, s, actions[0]);
      RunKeepsInvariant(lib, Reduce(lib, s, actions[0]).state, actions[1..]);
    }
  }

  /** From the initial state, every run of dispatchable actions that does not
      throw ends in a state with ordered ranges and a valid notation pair. */
  lemma SessionKeepsInvariant(lib: Library, actions: seq<Action>)
    requires LevelsOrdered(lib) && NotationRepairable(lib)
    requires forall i :: 0 <= i < |actions| ==> FromKeySelect(actions[i])
    ensures Run(lib, InitialState(lib), actions).Ok? ==>
      SessionInvariant(lib, Run(lib, InitialState(lib), actions).state)
  {
    InitialStateSatisfiesInvariant(lib);
    RunKeepsInvariant(lib, InitialState(lib), actions);
  }
}

=== FILE: key_select.dfy ===
/** The key options of src/components/notes/KeySelect.tsx: every letter with
    every accidental, letter-major, minus the three keys that do not exist. */
module KeySelect {
  import opened ChordTypes

  const BaseOptions: seq<Letter> := [C, D, E, F, G, A, B]

  /** The order in which each letter's accidentals are offered. */
  const AccidentalOptions: seq<Accidental> := [Flat, Natural, Sharp]

  /** One key per accidental on a single letter, in the accidentals' order. */
  function OnLetter(base: Letter, accidentals: seq<Accidental>): seq<Key> {
    if |accidentals| == 0 then []
    else [Key(base, accidentals[0])] + OnLetter(base, accidentals[1..])
  }

  /** `bases.map(base => accidentals.map(...)).flat()`. */
  function Pairs(bases: seq<Letter>, accidentals: seq<Accidental>): seq<Key> {
    if |bases| == 0 then []
    else OnLetter(bases[0], accidentals) + Pairs(bases[1..], accidentals)
  }

  /** `keys.filter(key => !(key.base === base && key.accidental === accidental))`. */
  function Without(keys: seq<Key>, banned: Key): seq<Key>
    decreases |keys|
  {
    if |keys| == 0 then []
    else if keys[0] == banned then Without(keys[1..], banned)
    else [keys[0]] + Without(keys[1..], banned)
  }

  /** The three spellings no key uses. */
  predicate NonExistent(k: Key) {
    k == Key(F, Flat) || k == Key(E, Sharp) || k == Key(B, Sharp)
  }

  /** The component's chain of three filters: Fb, then E#, then B#. */
  function Filtered(keys: seq<Key>): seq<Key> {
    Without(Without(Without(keys, Key(F, Flat)), Key(E, Sharp)), Key(B, Sharp))
  }

  // ---------------------------------------------------------------------
  // Product order
  // ---------------------------------------------------------------------

  function LetterRank(l: Letter): nat {
    match l
    case C => 0 case D => 1 case E => 2 case F => 3 case G => 4 case A => 5 case B => 6
  }

  function AccidentalRank(a: Accidental): nat {
    match a
    case Flat => 0 case Natural => 1 case Sharp => 2
  }

  /** A key's position in the unfiltered product: letter-major, then flat,
      natural, sharp. */
  function Rank(k: Key): nat {
    3 * LetterRank(k.base) + AccidentalRank(k.accidental)
  }

  /** Only B# sits at the last position of the product. */
  lemma RankBounded(k: Key)
    ensures Rank(k) <= 20
    ensures Rank(k) == 20 <==> k == Key(B, Sharp)
  {
  }

  predicate Increasing(keys: seq<Key>) {
    forall i, j :: 0 <= i < j < |keys| ==> Rank(keys[i]) < Rank(keys[j])
  }

  predicate LettersIncreasing(bases: seq<Letter>) {
    forall i, j :: 0 <= i < j < |bases| ==> LetterRank(bases[i]) < LetterRank(bases[j])
  }

  predicate AccidentalsIncreasing(accidentals: seq<Accidental>) {
    forall i, j :: 0 <= i < j < |accidentals| ==> AccidentalRank(accidentals[i]) < AccidentalRank(accidentals[j])
  }

  /** Two increasing lists, every key of the first before every key of the
      second, concatenate to an increasing list. */
  lemma IncreasingConcat(xs: seq<Key>, ys: seq<Key>)
    requires Increasing(xs) && Increasing(ys)
    requires forall x, y :: x in xs && y in ys ==> Rank(x) < Rank(y)
    ensures Increasing(xs + ys)
  {
    var zs := xs + ys;
    forall i, j | 0 <= i < j < |zs| ensures Rank(zs[i]) < Rank(zs[j]) {
      if j < |xs| {
        assert zs[i] == xs[i] && zs[j] == xs[j];
      } else if i >= |xs| {
        assert zs[i] == ys[i - |xs|] && zs[j] == ys[j - |xs|];
      } else {
        assert zs[i] == xs[i] && zs[j] == ys[j - |xs|];
        assert xs[i] in xs && ys[j - |xs|] in ys;
      }
    }
  }

  /** The tail of an increasing list is increasing and follows its head. */
  lemma IncreasingTail(keys: seq<Key>)
    requires |keys| > 0 && Increasing(keys)
    ensures Increasing(keys[1..])
    ensures forall k :: k in keys[1..] ==> Rank(keys[0]) < Rank(k)
    ensures forall k :: k in keys <==> k == keys[0] || k in keys[1..]
  {
    var rest := keys[1..];
    forall i, j | 0 <= i < j < |rest| ensures Rank(rest[i]) < Rank(rest[j]) {
      assert rest[i] == keys[i + 1] && rest[j] == keys[j + 1];
    }
    forall k | k in rest ensures Rank(keys[0]) < Rank(k) {
      var j :| 0 <= j < |rest| && rest[j] == k;
      assert rest[j] == keys[j + 1];
    }
  }

  /** One letter's block: its keys are that letter with each accidental, in
      increasing order. */
  lemma {:induction false} OnLetterShape(base: Letter, accidentals: seq<Accidental>)
    requires AccidentalsIncreasing(accidentals)
    ensures forall k :: k in OnLetter(base, accidentals) <==> k.base == base && k.accidental in accidentals
    ensures Increasing(OnLetter(base, accidentals))
    decreases |accidentals|
  {
    if |accidentals| > 0 {
      var tail := accidentals[1..];
      forall i, j | 0 <= i < j < |tail|
        ensures AccidentalRank(tail[i]) < AccidentalRank(tail[j])
      {
        assert tail[i] == accidentals[i + 1] && tail[j] == accidentals[j + 1];
      }
      OnLetterShape(base, tail);
      var head := [Key(base, accidentals[0])];
      var rest := OnLetter(base, tail);
      assert forall a :: a in accidentals <==> a == accidentals[0] || a in tail;
      forall x, y | x in head && y in rest ensures Rank(x) < Rank(y) {
        var j :| 0 <= j < |tail| && tail[j] == y.accidental;
        assert tail[j] == accidentals[j + 1];
      }
      IncreasingConcat(head, rest);
    }
  }

  /** `map` then `flat` gives one key per letter/accidental pair. */
  lemma {:induction false} PairsLength(bases: seq<Letter>, accidentals: seq<Accidental>)
    ensures |Pairs(bases, accidentals)| == |bases| * |accidentals|
    decreases |bases|
  {
    if |bases| > 0 {
      OnLetterLength(bases[0], accidentals);
      PairsLength(bases[1..], accidentals);
      assert |bases| * |accidentals| == |accidentals| + (|bases| - 1) * |accidentals|;
    }
  }

  lemma {:induction false} OnLetterLength(base: Letter, accidentals: seq<Accidental>)
    ensures |OnLetter(base, accidentals)| == |accidentals|
    decreases |accidentals|
  {
    if |accidentals| > 0 {
      OnLetterLength(base, accidentals[1..]);
    }
  }

  /** `map` then `flat` over increasing letters and accidentals gives every
      letter/accidental pair, in increasing product order. */
  lemma {:induction false} PairsShape(bases: seq<Letter>, accidentals: seq<Accidental>)
    requires LettersIncreasing(bases) && AccidentalsIncreasing(accidentals)
    ensures forall k :: k in Pairs(bases, accidentals) <==> k.base in bases && k.accidental in accidentals
    ensures Increasing(Pairs(bases, accidentals))
    decreases |bases|
  {
    if |bases| > 0 {
      var tail := bases[1..];
      forall i, j | 0 <= i < j < |tail| ensures LetterRank(tail[i]) < LetterRank(tail[j]) {
        assert tail[i] == bases[i + 1] && tail[j] == bases[j + 1];
      }
      OnLetterShape(bases[0], accidentals);
      PairsShape(tail, accidentals);
      var head := OnLetter(bases[0], accidentals);
      var rest := Pairs(tail, accidentals);
      assert forall l :: l in bases <==> l == bases[0] || l in tail;
      forall x, y | x in head && y in rest ensures Rank(x) < Rank(y) {
        var j :| 0 <= j < |tail| && tail[j] == y.base;
        assert tail[j] == bases[j + 1];
      }
      IncreasingConcat(head, rest);
    }
  }

  /** A filter drops exactly the banned key and keeps every other one. */
  lemma {:induction false} WithoutDropsOnlyBanned(keys: seq<Key>, banned: Key)
    ensures forall k :: k in Without(keys, banned) <==> k in keys && k != banned
    decreases |keys|
  {
    if |keys| > 0 {
      WithoutDropsOnlyBanned(keys[1..], banned);
      assert forall k :: k in keys <==> k == keys[0] || k in keys[1..];
    }
  }

  /** On an increasing list a filter keeps the order and removes exactly one
      key when the banned key is present, none otherwise. */
  lemma {:induction false} WithoutShape(keys: seq<Key>, banned: Key)
    requires Increasing(keys)
    ensures Increasing(Without(keys, banned))
    ensures |Without(keys, banned)| == if banned in keys then |keys| - 1 else |keys|
    decreases |keys|
  {
    if |keys| > 0 {
      var rest := keys[1..];
      IncreasingTail(keys);
      WithoutShape(rest, banned);
      WithoutDropsOnlyBanned(rest, banned);
      if keys[0] != banned {
        IncreasingConcat([keys[0]], Without(rest, banned));
      } else {
        assert banned !in rest;
      }
    }
  }

  /** The component's three filters on an increasing list. */
  lemma FilteredShape(keys: seq<Key>)
    requires Increasing(keys)
    ensures forall k :: k in Filtered(keys) <==> k in keys && !NonExistent(k)
    ensures Increasing(Filtered(keys))
    ensures |Filtered(keys)| ==
      |keys| - (if Key(F, Flat) in keys then 1 else 0)
             - (if Key(E, Sharp) in keys then 1 else 0)
             - (if Key(B, Sharp) in keys then 1 else 0)
  {
    var k1 := Without(keys, Key(F, Flat));
    var k2 := Without(k1, Key(E, Sharp));
    WithoutDropsOnlyBanned(keys, Key(F, Flat));
    WithoutShape(keys, Key(F, Flat));
    WithoutDropsOnlyBanned(k1, Key(E, Sharp));
    WithoutShape(k1, Key(E, Sharp));
    WithoutDropsOnlyBanned(k2, Key(B, Sharp));
    WithoutShape(k2, Key(B, Sharp));
  }

  /** The seven letters and three accidentals of the component, in
      increasing order, covering every key. */
  lemma OptionsIncreasing()
    ensures LettersIncreasing(BaseOptions) && AccidentalsIncreasing(AccidentalOptions)
    ensures |BaseOptions| == 7 && |AccidentalOptions| == 3
    ensures forall k: Key :: k.base in BaseOptions && k.accidental in AccidentalOptions
  {
    forall k: Key ensures k.base in BaseOptions && k.accidental in AccidentalOptions {
      match k.base {
        case C => assert BaseOptions[0] == C;
        case D => assert BaseOptions[1] == D;
        case E => assert BaseOptions[2] == E;
        case F => assert BaseOptions[3] == F;
        case G => assert BaseOptions[4] == G;
        case A => assert BaseOptions[5] == A;
        case B => assert BaseOptions[6] == B;
      }
      match k.accidental {
        case Flat => assert AccidentalOptions[0] == Flat;
        case Natural => assert AccidentalOptions[1] == Natural;
        case Sharp => assert AccidentalOptions[2] == Sharp;
      }
    }
  }

  /** `keyOptions`: exactly the keys other than Fb, E# and B#, each once, in
      the product's order (letter-major; flat, natural, sharp). */
  function KeyOptions(): (r: seq<Key>)
    ensures forall k :: k in r <==> !NonExistent(k)
    ensures Increasing(r)
    ensures |r| == 18
  {
    OptionsIncreasing();
    PairsLength(BaseOptions, AccidentalOptions);
    PairsShape(BaseOptions, AccidentalOptions);
    FilteredShape(Pairs(BaseOptions, AccidentalOptions));
    Filtered(Pairs(BaseOptions, AccidentalOptions))
  }

  /** Eighteen distinct options, from Cb to B. */
  lemma KeyOptionsShape()
    ensures forall i, j :: 0 <= i < j < |KeyOptions()| ==> KeyOptions()[i] != KeyOptions()[j]
    ensures KeyOptions()[0] == Key(C, Flat) && KeyOptions()[17] == Key(B, Natural)
  {
    var r := KeyOptions();
    assert Key(C, Flat) in r;
    var i :| 0 <= i < |r| && r[i] == Key(C, Flat);
    assert Key(B, Natural) in r;
    var j :| 0 <= j < |r| && r[j] == Key(B, Natural);
    RankBounded(r[17]);
    assert r[17] in r;
  }

  /** All seven natural keys are offered. */
  lemma NaturalsOffered()
    ensures forall l: Letter :: Key(l, Natural) in KeyOptions()
  {
  }
}

=== FILE: metronome.dfy ===
/** The tempo logic of src/pages/Metronome.tsx: clamped tempo steps, the
    keyboard mapping and the unclamped range slider. */
module Metronome {

  const MinTempo: int := 20
  const MaxTempo: int := 300

  /** The page state the handlers change. */
  datatype MetronomeState = MetronomeState(tempo: int, play: bool)

  predicate TempoInRange(tempo: int) {
    MinTempo <= tempo <= MaxTempo
  }

  /** `tempoUp`: raises the tempo by `step`, capped at the maximum. */
  function TempoUp(tempo: int, step: int): (r: int)
    ensures r <= MaxTempo
    ensures r == tempo + step || r == MaxTempo
    ensures r == MaxTempo <==> tempo + step >= MaxTempo
  {
    if tempo + step > MaxTempo then MaxTempo else tempo + step
  }

  /** `tempoDown`: lowers the tempo by `step`, floored at the minimum. */
  function TempoDown(tempo: int, step: int): (r: int)
    ensures r >= MinTempo
    ensures r == tempo - step || r == MinTempo
    ensures r == MinTempo <==> tempo - step <= MinTempo
  {
    if tempo - step < MinTempo then MinTempo else tempo - step
  }

  /** From a tempo in range, a non-negative step either way stays in range. */
  lemma StepsKeepTempoInRange(tempo: int, step: int)
    requires TempoInRange(tempo) && step >= 0
    ensures TempoInRange(TempoUp(tempo, step))
    ensures TempoInRange(TempoDown(tempo, step))
  {
  }

  /** `tempoUp` never lowers a tempo at or below the maximum, and `tempoDown`
      never raises one at or above the minimum. */
  lemma StepsMoveTheRightWay(tempo: int, step: int)
    requires step >= 0
    ensures tempo <= MaxTempo ==> TempoUp(tempo, step) >= tempo
    ensures tempo >= MinTempo ==> TempoDown(tempo, step) <= tempo
  {
  }

  /** `keyDownHandler`: Space or Enter toggles play; the arrows step the tempo
      by 10 (up/down) or 1 (right/left); any other key does nothing. */
  function KeyDown(code: string, m: MetronomeState): (r: MetronomeState)
    ensures code == "Space" || code == "Enter" ==> r == m.(play := !m.play)
    ensures code == "ArrowUp" ==> r == m.(tempo := TempoUp(m.tempo, 10))
    ensures code == "ArrowRight" ==> r == m.(tempo := TempoUp(m.tempo, 1))
    ensures code == "ArrowDown" ==> r == m.(tempo := TempoDown(m.tempo, 10))
    ensures code == "ArrowLeft" ==> r == m.(tempo := TempoDown(m.tempo, 1))
    ensures code !in ["Space", "Enter", "ArrowUp", "ArrowRight", "ArrowDown", "ArrowLeft"] ==> r == m
  {
    var play := if code == "Space" || code == "Enter" then !m.play else m.play;
    var tempo :=
      if code == "ArrowUp" then TempoUp(m.tempo, 10)
      else if code == "ArrowRight" then TempoUp(m.tempo, 1)
      else if code == "ArrowDown" then TempoDown(m.tempo, 10)
      else if code == "ArrowLeft" then TempoDown(m.tempo, 1)
      else m.tempo;
    MetronomeState(tempo, play)
  }

  /** No key takes a tempo in range out of range. */
  lemma KeyDownKeepsTempoInRange(code: string, m: MetronomeState)
    requires TempoInRange(m.tempo)
    ensures TempoInRange(KeyDown(code, m).tempo)
  {
    StepsKeepTempoInRange(m.tempo, 10);
    StepsKeepTempoInRange(m.tempo, 1);
  }

  /** `rangeHandler`: the slider's value becomes the tempo as it is. */
  function RangeChange(value: int, m: MetronomeState): (r: MetronomeState)
    ensures r.play == m.play
    ensures TempoInRange(r.tempo) <==> TempoInRange(value)
    ensures r.tempo == value
  {
    m.(tempo := value)
  }
}

=== FILE: play_controls.dfy ===
/** The player controls of src/components/player/PlayControls.tsx as pure
    "event -> dispatched actions" functions, composed with the reducer. */
module PlayControls {
  import opened ChordTypes
  import opened ChordsContext

  /** `nextHandler`: appends a chord when the window reaches the end of the
      list, then always moves the index on. */
  function NextActions(s: ProgramState): (r: seq<Action>)
    ensures AppendChordList in r <==> s.chordIndex >= |s.chords| - 2
    ensures |r| >= 1 && r[|r| - 1] == IncrementChordIndex
    ensures forall i :: 0 <= i < |r| ==> r[i] == AppendChordList || r[i] == IncrementChordIndex
  {
    (if s.chordIndex >= |s.chords| - 2 then [AppendChordList] else []) + [IncrementChordIndex]
  }

  /** `previousHandler`: moves the index back only when it is positive. */
  function PreviousActions(s: ProgramState): (r: seq<Action>)
    ensures r == [] || r == [DecrementChordIndex]
    ensures DecrementChordIndex in r <==> s.chordIndex > 0
  {
    if s.chordIndex > 0 then [DecrementChordIndex] else []
  }

  /** Bounds of the Euclidean remainder of a non-negative dividend. */
  lemma ModBounds(x: nat, m: int)
    requires m > 0
    ensures 0 <= x % m < m
    ensures x < m ==> x % m == x
  {
  }

  /** JavaScript's `%` for a positive divisor: the remainder takes the sign
      of the dividend. */
  function JsRemainder(a: int, m: int): (r: int)
    requires m > 0
    ensures a >= 0 ==> 0 <= r < m
    ensures a < 0 ==> -m < r <= 0
    ensures 0 <= a < m ==> r == a
    ensures -m < a < 0 ==> r == a
    ensures a >= 0 ==> r == a % m
  {
    var magnitude: nat := if a >= 0 then a else -a;
    ModBounds(magnitude, m);
    if a >= 0 then magnitude % m else -(magnitude % m)
  }

  /** The remainder is odd in the dividend: negating it negates the result. */
  lemma JsRemainderOdd(a: int, m: int)
    requires m > 0
    ensures JsRemainder(-a, m) == -JsRemainder(a, m)
  {
  }

  /** `beat !== 0 && beat % bpc === 0`. A count of 0 makes the remainder NaN,
      which equals nothing, so the test fails. */
  predicate CompletesChord(count: nat, beat: int) {
    beat != 0 && count != 0 && JsRemainder(beat, count) == 0
  }

  /** The metronome callback: nothing while stopped or with the '∞' setting;
      otherwise either the next-chord actions followed by a beat of 1, or a
      beat increment. */
  function TickActions(play: bool, s: ProgramState): (r: seq<Action>)
    ensures !play || s.beatsPerChord.Endless? ==> r == []
    ensures IncrementChordIndex in r <==>
      play && s.beatsPerChord.Beats? && CompletesChord(s.beatsPerChord.count, s.beat)
    ensures forall i :: 0 <= i < |r| ==> !r[i].SwitchKeyLock? && !r[i].SwitchExtensionLock?
    ensures IncrementChordIndex in r ==> |r| >= 2 && r[|r| - 1] == SetBeat(1) && r[..|r| - 1] == NextActions(s)
    ensures play && s.beatsPerChord.Beats? && IncrementChordIndex !in r ==> r == [IncrementBeat]
  {
    if !play then []
    else match s.beatsPerChord
      case Endless => []
      case Beats(count) =>
        if CompletesChord(count, s.beat) then NextActions(s) + [SetBeat(1)]
        else [IncrementBeat]
  }

  /** The state after one metronome tick. */
  function Tick(lib: Library, play: bool, s: ProgramState): Result {
    Run(lib, s, TickActions(play, s))
  }

  /** The state after `k` ticks while playing. */
  function Ticks(lib: Library, s: ProgramState, k: nat): Result
    decreases k
  {
    if k == 0 then Ok(s)
    else
      match Tick(lib, true, s)
      case Err(e) => Err(e)
      case Ok(t) => Ticks(lib, t, k - 1)
  }

  /** Next always advances the index: by one when a chord remains ahead, and
      by two when it appends, since the append action moves the index too. */
  lemma NextHandlerEffect(lib: Library, s: ProgramState)
    ensures Run(lib, s, NextActions(s)).Ok?
    ensures var t := Run(lib, s, NextActions(s)).state;
      && t.chordIndex == s.chordIndex + (if s.chordIndex >= |s.chords| - 2 then 2 else 1)
      && SameSettingsAndNotation(s, t)
  {
    if s.chordIndex >= |s.chords| - 2 {
      var t1 := Reduce(lib, s, AppendChordList).state;
      assert NextActions(s)[1..] == [IncrementChordIndex];
      assert Run(lib, s, NextActions(s)) == Run(lib, t1, [IncrementChordIndex]);
    } else {
      assert NextActions(s) == [IncrementChordIndex];
    }
  }

  /** With ChordsContext's reducer, "next" on the last two chords leaves the
      index past the two-chord window: from two chords at index 0 the append
      makes three and the index lands on 2, so turning the key lock on then
      finds one chord in its window and throws. */
  lemma NextAtEndThenKeyLockThrows(lib: Library, s: ProgramState)
    requires |s.chords| == 2 && s.chordIndex == 0 && !s.keyLocked
    requires |lib.generateChords(1, s, true).chords| == 3
    ensures Run(lib, s, NextActions(s)).state.chordIndex == 2
    ensures Run(lib, s, NextActions(s) + [SwitchKeyLock]).Err?
  {
    var t1 := Reduce(lib, s, AppendChordList).state;
    var t := t1.(chordIndex := 2);
    assert NextActions(s) == [AppendChordList, IncrementChordIndex];
    assert NextActions(s)[1..] == [IncrementChordIndex];
    assert Run(lib, t1, [IncrementChordIndex]) == Run(lib, t, []);
    assert Run(lib, s, NextActions(s)) == Ok(t);
    RunAppend(lib, s, NextActions(s), [SwitchKeyLock]);
    assert |LockWindow(t)| == 1;
  }

  /** Previous never takes a non-negative index below zero. */
  lemma PreviousHandlerEffect(lib: Library, s: ProgramState)
    requires s.chordIndex >= 0
    ensures Run(lib, s, PreviousActions(s)).Ok?
    ensures var t := Run(lib, s, PreviousActions(s)).state;
      && t.chordIndex >= 0
      && t.chordIndex == (if s.chordIndex > 0 then s.chordIndex - 1 else 0)
      && t == s.(chordIndex := t.chordIndex)
  {
  }

  /** Stopped, or with the '∞' setting, a tick leaves the state as it was. */
  lemma IdleTickChangesNothing(lib: Library, play: bool, s: ProgramState)
    requires !play || s.beatsPerChord.Endless?
    ensures Tick(lib, play, s) == Ok(s)
  {
  }

  /** With the '∞' setting, no number of ticks ever moves the chord. */
  lemma {:induction false} EndlessNeverAdvances(lib: Library, s: ProgramState, k: nat)
    requires s.beatsPerChord.Endless?
    ensures Ticks(lib, s, k) == Ok(s)
    decreases k
  {
    if k > 0 {
      IdleTickChangesNothing(lib, true, s);
      EndlessNeverAdvances(lib, s, k - 1);
    }
  }

  /** Within 1..count only `count` itself is a non-zero multiple of `count`. */
  lemma CompletesChordInRange(count: nat, beat: int)
    requires count >= 1 && 0 <= beat <= count
    ensures CompletesChord(count, beat) <==> beat == count
  {
    if beat == count {
      assert count % count == 0;
    }
  }

  /** With `count >= 1` beats per chord and `0 <= beat <= count`, a tick
      keeps the beat within `0..count`; it moves the chord exactly when the
      beat had reached `count`, restarting at 1, and otherwise counts up. */
  lemma TickKeepsBeatInRange(lib: Library, s: ProgramState)
    requires s.beatsPerChord.Beats? && s.beatsPerChord.count >= 1
    requires 0 <= s.beat <= s.beatsPerChord.count
    ensures Tick(lib, true, s).Ok?
    ensures var t := Tick(lib, true, s).state;
      && 0 <= t.beat <= s.beatsPerChord.count
      && t.beatsPerChord == s.beatsPerChord
      && t.beat == (if s.beat == s.beatsPerChord.count then 1 else s.beat + 1)
      && (t.chordIndex != s.chordIndex <==> s.beat == s.beatsPerChord.count)
      && t.chordIndex >= s.chordIndex
  {
    var n := s.beatsPerChord.count;
    CompletesChordInRange(n, s.beat);
    if s.beat == n {
      var next := NextActions(s);
      assert TickActions(true, s) == next + [SetBeat(1)];
      NextHandlerEffect(lib, s);
      RunAppend(lib, s, next, [SetBeat(1)]);
      var t := Run(lib, s, next).state;
      assert [SetBeat(1)][1..] == [];
      assert Run(lib, t, [SetBeat(1)]) == Ok(t.(beat := 1));
    } else {
      assert TickActions(true, s) == [IncrementBeat];
      assert [IncrementBeat][1..] == [];
    }
  }

  /** A playing tick that does not complete the chord only counts the beat
      up, whatever the count: with a count of 0 the beat grows without end. */
  lemma NonAdvancingTick(lib: Library, s: ProgramState)
    requires s.beatsPerChord.Beats? && !CompletesChord(s.beatsPerChord.count, s.beat)
    ensures Tick(lib, true, s) == Ok(s.(beat := s.beat + 1))
  {
    assert TickActions(true, s) == [IncrementBeat];
    assert [IncrementBeat][1..] == [];
  }

  /** A playing tick that completes the chord runs "next" and then restarts
      the beat at 1. */
  lemma AdvancingTick(lib: Library, s: ProgramState)
    requires s.beatsPerChord.Beats? && CompletesChord(s.beatsPerChord.count, s.beat)
    ensures Tick(lib, true, s).Ok?
    ensures var t := Tick(lib, true, s).state;
      && t.beat == 1
      && t.chordIndex == s.chordIndex + (if s.chordIndex >= |s.chords| - 2 then 2 else 1)
      && SameSettingsAndNotation(s, t.(beat := s.beat))
  {
    var next := NextActions(s);
    assert TickActions(true, s) == next + [SetBeat(1)];
    NextHandlerEffect(lib, s);
    RunAppend(lib, s, next, [SetBeat(1)]);
    var t := Run(lib, s, next).state;
    assert [SetBeat(1)][1..] == [];
    assert Run(lib, t, [SetBeat(1)]) == Ok(t.(beat := 1));
  }

  /** Running two action lists one after the other is running their
      concatenation. */
  lemma {:induction false} RunAppend(lib: Library, s: ProgramState, xs: seq<Action>, ys: seq<Action>)
    ensures Run(lib, s, xs + ys) ==
      (match Run(lib, s, xs)
       case Err(e) => Err(e)
       case Ok(t) => Run(lib, t, ys))
    decreases |xs|
  {
    if |xs| > 0 {
      assert (xs + ys)[0] == xs[0];
      assert (xs + ys)[1..] == xs[1..] + ys;
      match Reduce(lib, s, xs[0])
      case Err(_) =>
      case Ok(t) => RunAppend(lib, t, xs[1..], ys);
    } else {
      assert xs + ys == ys;
    }
  }

  /** Counting up from `beat = j`, `k` more ticks with `j + k <= count` reach
      beat `j + k` without moving the chord. */
  lemma {:induction false} TicksCountUp(lib: Library, s: ProgramState, k: nat)
    requires s.beatsPerChord.Beats? && s.beatsPerChord.count >= 1
    requires 0 <= s.beat && s.beat + k <= s.beatsPerChord.count
    ensures Ticks(lib, s, k).Ok?
    ensures var t := Ticks(lib, s, k).state;
      t.beat == s.beat + k && t.chordIndex == s.chordIndex && t.beatsPerChord == s.beatsPerChord
    decreases k
  {
    if k > 0 {
      TickKeepsBeatInRange(lib, s);
      TicksCountUp(lib, Tick(lib, true, s).state, k - 1);
    }
  }

  /** From `beat = 0`, the first `count` ticks count the beats without moving
      the chord, and the tick after that moves it and restarts at beat 1. */
  lemma ChordAdvancesAfterCountBeats(lib: Library, s: ProgramState)
    requires s.beatsPerChord.Beats? && s.beatsPerChord.count >= 1
    requires s.beat == 0
    ensures var n := s.beatsPerChord.count;
      && Ticks(lib, s, n).Ok?
      && Ticks(lib, s, n).state.chordIndex == s.chordIndex
      && Ticks(lib, s, n).state.beat == n
      && Ticks(lib, s, n + 1).Ok?
      && Ticks(lib, s, n + 1).state.chordIndex > s.chordIndex
      && Ticks(lib, s, n + 1).state.beat == 1
  {
    var n := s.beatsPerChord.count;
    TicksCountUp(lib, s, n);
    var t := Ticks(lib, s, n).state;
    TickKeepsBeatInRange(lib, t);
    TicksSplit(lib, s, n);
  }

  /** One more tick after `k` ticks is `k + 1` ticks. */
  lemma {:induction false} TicksSplit(lib: Library, s: ProgramState, k: nat)
    requires Ticks(lib, s, k).Ok?
    ensures Ticks(lib, s, k + 1) == Tick(lib, true, Ticks(lib, s, k).state)
    decreases k
  {
    if k > 0 {
      TicksSplit(lib, Tick(lib, true, s).state, k - 1);
    }
  }
}
